=== FILE: README.md ===
# TubeDigest core in Dafny

TubeDigest is a bot that watches YouTube channels. It summarises new videos
with a language model and posts the summaries to Telegram channels. This
project models two parts of it as pure Dafny functions and proves properties
about them.

**The polling bot** (`youtube_summary_bot.py`) covers four operations:

- **Splitting a summary into messages** (`split_at_word_boundary` and the
  plan of `send_telegram_message`). The caption's summary text holds at most
  900 characters, and each follow-up reply's summary text at most 4000. Every
  message that is followed by more summary text also ends with the
  3-character " ⬇️" marker, so a caption can reach 903 characters and a
  follow-up 4003. The "Source: [title](url)" line goes into the caption, into
  the last follow-up, or into a reply of its own; that separate reply has no
  length bound.
- **The `is_short` test**, which checks whether the watch URL
  `https://www.youtube.com/watch?v={id}` contains "/shorts/". That holds only
  for an id that itself contains "/shorts/", and no real video id does
  (`Queues.IdsAreNeverShorts`).
- **Feeding the queues** (`check_and_add_new_videos`). Each channel mapping
  has a processed list and an unprocessed queue. Each fetched upload that the
  mapping does not already know is appended to one of them: ids accepted by
  `is_short` go to the processed list, all others to the queue. Since no real
  video id passes the test, real Shorts are queued like any other video.
- **Processing one video** (`process_pending_videos`):
  1. Pick the queue head with the earliest publish time. Ties go to the
     earlier mapping.
  2. Choose the best available thumbnail.
  3. After a successful delivery, move the head to the processed list.

**The command handlers** (`src/handlers/command_handler.py`) cover `/start`,
`/add_channel`, `/remove_channel` and `/list_channels`. Each one is a
transition over an abstract store of users and channel records, and each
returns the reply text.

## Modelling conventions

- Strings are `seq<char>`, and lengths count code points, as Python's `len`
  does.
- `strip()` is modelled as `Text.Strip`, using the whitespace set of Python's
  `str.isspace`.
- `rfind` is modelled as `Text.RFind`.
- The substring test is modelled as `Text.Contains`.
- Outside services are parameters:
  - the YouTube lookups, the transcript fetcher, the summariser and the
    Telegram delivery are gathered in `Processing.Services`;
  - the upload listing is the `uploads` argument of
    `Queues.CheckAndAddNewVideos`;
  - the channel lookup is the `lookup` argument of
    `Subscriptions.AddChannel`.

## Modules

| Module | File | Contents |
|---|---|---|
| `Optional` | `optional.dfy` | `Option` |
| `Sequences` | `sequences.dfy` | re-association of concatenation |
| `Text` | `text.dfy` | whitespace, strip, substring, rfind |
| `WordSplit` | `split.dfy` | `split_at_word_boundary` |
| `MessagePlan` | `plan.dfy` | caption, follow-ups, source placement, delivered texts |
| `Queues` | `queues.dfy` | mappings, `is_short`, enqueueing |
| `Processing` | `processing.dfy` | earliest head, thumbnail, queue move |
| `Subscriptions` | `subscriptions.dfy` | command handlers |

## Model

| member | source | states |
|---|---|---|
| Text.Strip | youtube_summary_bot.py:168 | The result is `s` minus a whitespace prefix and a whitespace suffix. It neither begins nor ends with whitespace. |
| Text.StripUnique | youtube_summary_bot.py:168 | Any cut of `s` into whitespace, a stripped middle and whitespace has `Strip(s)` as its middle, so `Strip` is exactly Python's `strip()`. |
| Text.RFind | youtube_summary_bot.py:164 | The result is -1 or an index below `end` holding `c`. No occurrence of `c` lies between it and `end`. |
| WordSplit.CutIndex | youtube_summary_bot.py:163-166 | The cut is the last space before the limit, or the limit itself when that prefix has no space. |
| WordSplit.SplitAtWordBoundary | youtube_summary_bot.py:158-168 | Text that fits is returned whole with an empty rest. Otherwise both halves are the stripped sides of the cut. The first part never exceeds the limit, and the rest is always stripped. |
| WordSplit.SplitShrinks | youtube_summary_bot.py:196-197 | With a positive limit, the rest is empty or strictly shorter than the input, so the follow-up loop terminates. |
| WordSplit.SplitKeepsContent | youtube_summary_bot.py:158-168 | With whitespace erased, the two parts concatenate to the input: splitting loses only whitespace. |
| WordSplit.SplitKeepsOrder | youtube_summary_bot.py:158-168 | An over-long input is whitespace, then the first part, whitespace, the rest, and whitespace, in that order. |
| MessagePlan.FollowUps | youtube_summary_bot.py:196-201 | A non-empty remainder gives at least one chunk and an empty one gives none. Every chunk body is at most 4000 characters. Exactly the chunks before the last are marked as continued. |
| MessagePlan.SendFollowUps | youtube_summary_bot.py:196-201 | The `while` loop over the remainder computes exactly the chunks `FollowUps` defines. |
| MessagePlan.FollowUpsKeepContent | youtube_summary_bot.py:196-201 | With whitespace erased, the chunk bodies concatenate to the remainder: nothing is lost, duplicated or reordered. |
| MessagePlan.PlanMessages | youtube_summary_bot.py:170-201 | The caption body is at most 900 characters. The caption carries the marker exactly when follow-ups exist. A summary of at most 900 characters is the caption unchanged, with no follow-ups. The follow-ups are bounded and marked as `FollowUps` states. |
| MessagePlan.PlanPlacesSource | youtube_summary_bot.py:215-271 | Without follow-ups, the source line goes into the caption exactly when both fit in 900 characters, and into a separate reply otherwise. With follow-ups, it goes into the last one exactly when both fit in 4000 characters, and into a separate reply otherwise. |
| MessagePlan.PlanKeepsContent | youtube_summary_bot.py:170-201 | With whitespace erased, the caption and the follow-ups carry the whole summary in order. |
| MessagePlan.Deliver | youtube_summary_bot.py:172-271 | The caption and each reply are the planned piece texts. The source line is appended to the caption or to the last reply, or sent as one extra final reply, according to the placement. |
| MessagePlan.CaptionBounded | youtube_summary_bot.py:244-258 | The delivered caption never exceeds 900 characters plus the marker. |
| MessagePlan.RepliesBounded | youtube_summary_bot.py:215-243 | Every delivered reply is a follow-up of at most 4000 characters plus the marker, or the bare source line. |
| MessagePlan.SendTelegramMessage | youtube_summary_bot.py:150-271 | The caption stays within 900 characters plus the marker. Every reply stays within 4000 characters plus the marker, unless it is the source line itself. A summary that fits in the caption together with the source line is delivered as that single caption. |
| Queues.IsShortIffIdContainsMarker | youtube_summary_bot.py:104-110 | The fixed watch-URL prefix cannot contribute to a match, so `is_short(id)` holds exactly when the id itself contains "/shorts/". |
| Queues.IdsAreNeverShorts | youtube_summary_bot.py:104-110 | For an id made of the video-id alphabet (letters, digits, `-`, `_`), `is_short` is false. |
| Queues.EnqueueOne | youtube_summary_bot.py:288-305 | Handling one fetched id keeps the mapping's identity. It only appends to the two lists, and adds exactly that id to the known set. It preserves "every id appears once across both lists". |
| Queues.Enqueue | youtube_summary_bot.py:287-305 | Handling a batch keeps the mapping's identity and only appends. The known set grows by exactly the batch. Duplicate-freedom is preserved, including for repeats within the batch. |
| Queues.EnqueueAppendsFirstSightings | youtube_summary_bot.py:287-305 | Among the first sightings of unknown ids, those `is_short` accepts are appended to the processed list and the rest to the queue, each in fetch order. |
| Queues.CheckAndAddNewVideos | youtube_summary_bot.py:278-305 | Every mapping is fed its own channel's uploads. The mapping's identity is unchanged. Among the first sightings of ids the mapping did not know, those `is_short` accepts are appended to the processed list and the rest to the queue, each in fetch order. The known ids grow by exactly the fetched ids. Well-formedness is preserved. |
| Processing.Heads | youtube_summary_bot.py:314-335 | A mapping contributes a candidate exactly when its queue is non-empty and the head's lookup succeeds. The candidate is that lookup's result. |
| Processing.Earliest | youtube_summary_bot.py:313-335 | The result is None exactly when no candidate exists. Otherwise it is the unique slot with the smallest publish time that is strictly earlier than every candidate before it. |
| Processing.ScanEarliest | youtube_summary_bot.py:309-335 | The loop that tracks the earliest time seen so far selects exactly `Earliest`'s slot. |
| Processing.PickThumbnail | youtube_summary_bot.py:350-360 | The result is the URL of the first size present in the order maxres, standard, high, medium, default. It is None exactly when none is present, where the source's lookup raises. |
| Processing.MarkProcessed | youtube_summary_bot.py:370-371 | The head moves to the end of the processed list and the rest of the queue stays. The concatenation of the two lists and the known set are unchanged. Well-formedness is unchanged in both directions. |
| Processing.ProcessSlot | youtube_summary_bot.py:337-374 | For the selected slot: a post exists exactly when the transcript is non-empty, the summariser and thumbnail choice succeed, and delivery succeeds. Then the post carries that head, its channel, thumbnail and `SendTelegramMessage` of the summary, and only that mapping's head moves to processed. Otherwise nothing changes. Well-formedness is preserved. |
| Processing.ProcessPending | youtube_summary_bot.py:307-374 | Without a post, nothing changes. A post means all of the following: the earliest head was chosen; it had a transcript, a summary and a thumbnail; the delivery is exactly `SendTelegramMessage` of that summary; the delivery succeeded; that mapping's head moved to processed; and every other mapping is untouched. Conversely, when the earliest head has a transcript, a summary and a thumbnail and its delivery succeeds, there is a post. With no candidate there is no post. Well-formedness is preserved. |
| Subscriptions.Start | src/handlers/command_handler.py:22-46 | The reply is the welcome text and the channels are unchanged. Afterwards the user exists. An existing user leaves the store untouched, and a new one is appended once. User uniqueness is preserved. |
| Subscriptions.StartIdempotent | src/handlers/command_handler.py:27-33 | Sending /start twice leaves the store as after the first time. |
| Subscriptions.AddChannel | src/handlers/command_handler.py:49-93 | There is one reply per guard: missing argument, channel not found, lookup error, already monitored. The store changes exactly when the argument is present, the lookup finds a title and the pair is not yet recorded. The change appends that record and replies "Added channel: " with the title. Afterwards the user monitors a found channel. Pair uniqueness is preserved. |
| Subscriptions.FirstMatch | src/handlers/command_handler.py:125-128 | The result is the index of the first record for the (channel, user) pair, or None exactly when there is none. |
| Subscriptions.RemoveChannel | src/handlers/command_handler.py:114-139 | There is one reply per guard. The store changes exactly when the argument is present and the user monitors the channel. The change deletes the first matching record, exactly one element of the multiset, and names its title. Pair uniqueness is preserved, and under it the pair is gone afterwards. |
| Subscriptions.Without | src/handlers/command_handler.py:135-136 | Deleting entry `k` shifts the later entries down by one and removes exactly that entry from the multiset. |
| Subscriptions.RemovalKeepsUnique | src/handlers/command_handler.py:125-136 | Under pair uniqueness, deleting a record keeps uniqueness and leaves no record with the deleted pair. |
| Subscriptions.Owned | src/handlers/command_handler.py:100 | The records returned are exactly those of the user. |
| Subscriptions.ListChannels | src/handlers/command_handler.py:95-111 | The fixed "not monitoring" reply is given exactly when the user has no record. Otherwise the reply is the header followed by one bullet line per record of the user, in store (insertion) order. |
| Subscriptions.ListAfterAdd | src/handlers/command_handler.py:84-109 | After a successful /add_channel, the user's list is the header, the earlier lines, and the new channel's line last. |
| Subscriptions.AddThenRemoveRestores | src/handlers/command_handler.py:84-136 | Removing a channel right after a successful add restores the store exactly. |
| Subscriptions.AddKeepsOtherLists | src/handlers/command_handler.py:72-100 | /add_channel never changes another user's /list_channels reply. |
| Subscriptions.RemoveKeepsOtherLists | src/handlers/command_handler.py:125-136 | /remove_channel never changes another user's /list_channels reply. |
| Subscriptions.ShippedLookup | src/handlers/command_handler.py:60-70 | The lookup the handler performs always raises, because the YouTube service defines no `get_channel_info`. |
| Subscriptions.ShippedAddNeverAdds | src/handlers/command_handler.py:60-70 | With the shipped lookup, /add_channel never changes the store. Given an argument, it always replies with the verification error. |

## Left out

- **Proxy pool:** the source of the proxy pool and its rotation is not part of this model.
- **Outside services:** the YouTube Data API, the transcript API, OpenAI and Telegram are oracles. Their request formats, Markdown parsing and network behaviour are not modelled.
- **Retries and timing:** the `backoff` retries, the 30-second `wait_for` timeouts, the two periodic loops of `run` and their sleeps, and all concurrency are left out. Each operation is one atomic step.
- **Persistence:** loading and saving `data.json` is left out. `save_channel_mappings` after each append is not modelled, because the saved value equals the in-memory mapping.
- **Database:** the SQLAlchemy session, commits and the ORM classes are replaced by the `Store` value, whose inserts and deletes always succeed. Where the database schema makes a commit fail or a query match differently, the program diverges from the model; the three `Subscriptions` lines below say how. The `/help` handler and logging are not modelled.
- **Generated fields:** the database's auto-increment ids and timestamps are not modelled.
- **Processing.ProcessPending, video id:** the processed video is taken to be the queue head. The source uses the id echoed by the lookup response and removes it with `list.remove`, which drops the head when the lookup echoes the requested id.
- **Processing.ProcessPending, timestamps:** the publish time is an `int`. The `strptime` parse is folded into the lookup oracle, and a malformed time counts as a failed lookup.
- **Processing.ProcessPending, failures:** a failure is all-or-nothing. If a send fails after the photo went out, the source has already posted part of the summary. The model only reports "not delivered" and leaves the queues unchanged, as the source does.
- **Processing.ProcessPending, summariser:** `prompt["user"].format(...)` and any raised error from the summariser are folded into the `summarize` oracle returning None.
- **Processing.PickThumbnail:** a chosen size whose entry has no `url` key also raises in the source. The map stores the URL directly, so this case is not modelled.
- **Queues.CheckAndAddNewVideos, malformed items:** an upload item without the expected `snippet`/`resourceId`/`videoId` or `title` keys raises a `KeyError` that aborts the rest of the pass, leaving earlier mappings and items updated and later ones not. The model has no counterpart for this: every listed id is a well-formed id.
- **Subscriptions.ListChannels / Subscriptions.RemoveChannel:** the queries `.all()` and `.first()` carry no `order_by`, so the database decides the order of the listed lines and which of several duplicate records is deleted. The model fixes insertion order for both.
- **Queues.CheckAndAddNewVideos, listing:** the listing's five-item limit (`maxResults=5`) and the error path that returns an empty list are properties of the `uploads` oracle, which may return any sequence. The oracle is one pure function of the channel id, so two mappings that share a YouTube channel get the same listing, whereas the source calls `get_channel_uploads` once per mapping and those calls may differ (one may fail and return an empty list).
- **Subscriptions.AddChannel, missing title:** a lookup result without a `title` key raises outside the handler's `try`. It is not modelled, because `Found` always carries a title.
- **Subscriptions.AddChannel, user id:** `Channel.userId` holds the Telegram id, as the handler stores it (src/handlers/command_handler.py:87). The ORM declares `channels.user_id` as a foreign key to `users.id`, the auto-increment key and not the Telegram id (src/models/channel.py:13). Under an engine that enforces foreign keys, such as MySQL's default InnoDB, the insert at `commit()` then fails unless some `users.id` happens to equal the Telegram id, and the handler raises without replying. The model has no such failure: a record that passes the guards is always appended and answered with "Added channel: {title}".
- **Subscriptions.Start / Subscriptions.AddChannel, database constraints:** `telegramId` and `userId` are unbounded `int` in the model, and `youtubeId` and `title` are unbounded strings. The ORM declares `users.telegram_id` and `channels.user_id` as `Integer` (src/models/user.py:11, src/models/channel.py:13), a 32-bit `INT` with maximum 2147483647 in MySQL, and `youtube_id` and `title` as `String(50)` and `String(255)`. Telegram user ids can exceed that maximum. For such a user, under MySQL's default strict mode, the `/start` insert fails at `commit()` and the handler raises without sending the welcome text, while the model appends the user and replies. The same holds for `/add_channel` with such a user, or with an id or title longer than its column: the program raises, the model appends and replies.
- **Subscriptions.FirstMatch / Subscriptions.RemoveChannel / Subscriptions.AddChannel, id matching:** the model matches `youtubeId` by exact string equality (`Subscriptions.Matches`). The program's filters `Channel.youtube_id == channel_id` run in the database, and the tables are created without a collation (src/init_db.py:8), so MySQL's default collation, which ignores case and accents, decides. With a stored record `UCab` of user 1, `/remove_channel ucab` deletes that record and replies "Removed channel: …" in the program, while the model replies that the channel is not in the list. Likewise, `/add_channel ucab` is refused as already monitored by the program but appended by the model.
- **Subscriptions.Start:** the username is stored as given. The user's `first_name` only shapes the reply.

## Findings

| source | as written | input that shows it | evidently intended | confidence | as-written member | corrected member |
|---|---|---|---|---|---|---|
| src/handlers/command_handler.py:62 | `/add_channel` calls `get_channel_info`, which the given `YouTubeService` does not define. The resulting `AttributeError` is caught and answered with "Error verifying channel: …". | `/add_channel UC_x5XG1OV2P6uZZ5FSM9Ttw` from any user, with any store | Look the channel up and record it with its title when it exists. | not executed | Subscriptions.ShippedAddNeverAdds | Subscriptions.AddChannel |

=== FILE: optional.dfy ===
/** The optional value used for every lookup that may come back empty. */
module Optional {

  datatype Option<+T> = None | Some(value: T)
}

=== FILE: plan.dfy ===
/**
 * The messages `send_telegram_message` produces for one summary, as a pure
 * plan: a photo caption whose summary text is at most 900 characters,
 * follow-up replies whose summary text is at most 4000 characters each, the
 * 3-character continuation marker appended (beyond those limits) to every
 * message that is followed by more summary text, and a "Source" line placed
 * in the caption, in the last follow-up, or in a reply of its own, which is
 * not bounded. The Telegram calls that
 * send and edit these messages are not modelled; `Deliver` gives the texts
 * the channel ends up showing.
 */
module MessagePlan {
  import opened Sequences
  import opened Text
  import opened WordSplit

  const CaptionLimit: nat := 900
  const ChunkLimit: nat := 4000

  /** " ⬇️": a space, U+2B07 and the emoji variation selector. */
  const Continuation: string := " \U{2B07}\U{FE0F}"

  /** The line naming the video, `"\n\nSource: [title](url)"`. */
  function SourceInfo(title: string, url: string): string {
    "\n\nSource: [" + title + "](" + url + ")"
  }

  /** One piece of summary text and whether more text follows it. */
  datatype Piece = Piece(body: string, continued: bool) {
    function Text(): string {
      body + (if continued then Continuation else "")
    }
  }

  /** Where the source line goes. */
  datatype Placement = InCaption | InLastChunk | SeparateReply

  datatype Plan = Plan(caption: Piece, chunks: seq<Piece>, placement: Placement)

  /** The final texts: the photo caption and the replies, in sending order. */
  datatype Delivery = Delivery(caption: string, replies: seq<string>)

  /** The visible summary text of a sequence of pieces, whitespace erased. */
  function DenseBodies(chunks: seq<Piece>): string {
    if chunks == [] then "" else Dense(chunks[0].body) + DenseBodies(chunks[1..])
  }

  /**
   * The follow-up loop: split the remainder at 4000 characters until nothing
   * is left, marking every piece but the last as continued.
   */
  function FollowUps(rest: string): (chunks: seq<Piece>)
    ensures rest == "" <==> chunks == []
    ensures forall k :: 0 <= k < |chunks| ==> |chunks[k].body| <= ChunkLimit
    ensures forall k :: 0 <= k < |chunks| ==> (chunks[k].continued <==> k < |chunks| - 1)
    decreases |rest|
  {
    if rest == "" then []
    else
      SplitShrinks(rest, ChunkLimit);
      var (chunk, more) := SplitAtWordBoundary(rest, ChunkLimit);
      [Piece(chunk, more != "")] + FollowUps(more)
  }

  /** The follow-up loop as `send_telegram_message` writes it, a `while` over the remainder. */
  method SendFollowUps(rest: string) returns (chunks: seq<Piece>)
    ensures chunks == FollowUps(rest)
  {
    chunks := [];
    var remaining := rest;
    while remaining != ""
      invariant chunks + FollowUps(remaining) == FollowUps(rest)
      decreases |remaining|
    {
      var parts := SplitAtWordBoundary(remaining, ChunkLimit);
      var piece := Piece(parts.0, parts.1 != "");
      FollowUpsStep(remaining);
      Regroup3(chunks, [piece], FollowUps(parts.1));
      chunks := chunks + [piece];
      remaining := parts.1;
    }
  }

  /** One turn of the follow-up loop: a piece is emitted and the remainder shrinks. */
  lemma FollowUpsStep(rest: string)
    requires rest != ""
    ensures var parts := SplitAtWordBoundary(rest, ChunkLimit);
            && |parts.1| < |rest|
            && FollowUps(rest) == [Piece(parts.0, parts.1 != "")] + FollowUps(parts.1)
  {
    SplitShrinks(rest, ChunkLimit);
  }

  /** No visible character of the remainder is lost, duplicated or reordered by the follow-up loop. */
  lemma {:induction false} FollowUpsKeepContent(rest: string)
    ensures DenseBodies(FollowUps(rest)) == Dense(rest)
    decreases |rest|
  {
    if rest != "" {
      SplitShrinks(rest, ChunkLimit);
      var (chunk, more) := SplitAtWordBoundary(rest, ChunkLimit);
      SplitKeepsContent(rest, ChunkLimit);
      FollowUpsKeepContent(more);
      assert FollowUps(rest)[1..] == FollowUps(more);
    }
  }

  /** The plan `send_telegram_message` follows for a summary, video title and video URL. */
  function PlanMessages(summary: string, title: string, url: string): (p: Plan)
    ensures |p.caption.body| <= CaptionLimit
    ensures p.caption.continued <==> p.chunks != []
    ensures |summary| <= CaptionLimit ==> p.caption.body == summary && p.chunks == []
    ensures forall k :: 0 <= k < |p.chunks| ==> |p.chunks[k].body| <= ChunkLimit
    ensures forall k :: 0 <= k < |p.chunks| ==> (p.chunks[k].continued <==> k < |p.chunks| - 1)
    ensures p.placement == InLastChunk ==> p.chunks != []
  {
    var (first, rest) := SplitAtWordBoundary(summary, CaptionLimit);
    var caption := Piece(first, rest != "");
    var source := SourceInfo(title, url);
    if rest != "" then
      var chunks := FollowUps(rest);
      var last := chunks[|chunks| - 1];
      Plan(caption, chunks, if |last.body| + |source| <= ChunkLimit then InLastChunk else SeparateReply)
    else
      Plan(caption, [], if |caption.Text()| + |source| <= CaptionLimit then InCaption else SeparateReply)
  }

  /**
   * Where the source line goes: into the caption when the summary needed no
   * follow-ups and the caption has room for it within 900 characters, into the
   * last follow-up when that one has room within 4000, and otherwise into a
   * reply of its own.
   */
  lemma PlanPlacesSource(summary: string, title: string, url: string)
    ensures var p := PlanMessages(summary, title, url);
            p.chunks == [] ==>
              p.placement != InLastChunk
              && (p.placement == InCaption <==> |p.caption.body| + |SourceInfo(title, url)| <= CaptionLimit)
    ensures var p := PlanMessages(summary, title, url);
            p.chunks != [] ==>
              p.placement != InCaption
              && (p.placement == InLastChunk <==> |p.chunks[|p.chunks| - 1].body| + |SourceInfo(title, url)| <= ChunkLimit)
  {
    var p := PlanMessages(summary, title, url);
    var parts := SplitAtWordBoundary(summary, CaptionLimit);
    var source := SourceInfo(title, url);
    if parts.1 == "" {
      assert p.caption == Piece(parts.0, false) && p.chunks == [];
      assert p.placement == if |parts.0| + |source| <= CaptionLimit then InCaption else SeparateReply;
    } else {
      var chunks := FollowUps(parts.1);
      assert p.chunks == chunks != [];
      assert p.placement == if |chunks[|chunks| - 1].body| + |source| <= ChunkLimit then InLastChunk else SeparateReply;
    }
  }

  /** Caption and follow-ups together carry every visible character of the summary, in order. */
  lemma PlanKeepsContent(summary: string, title: string, url: string)
    ensures var p := PlanMessages(summary, title, url);
            Dense(p.caption.body) + DenseBodies(p.chunks) == Dense(summary)
  {
    var (first, rest) := SplitAtWordBoundary(summary, CaptionLimit);
    SplitKeepsContent(summary, CaptionLimit);
    FollowUpsKeepContent(rest);
    if rest == "" {
      assert Dense(rest) == "";
    }
  }

  /** The texts the channel shows once the plan has been carried out with the given source line. */
  function Deliver(p: Plan, source: string): (d: Delivery)
    requires p.placement == InLastChunk ==> p.chunks != []
    ensures |d.replies| == |p.chunks| + (if p.placement == SeparateReply then 1 else 0)
    ensures d.caption == p.caption.Text() + (if p.placement == InCaption then source else "")
    ensures forall k :: 0 <= k < |p.chunks| ==>
              d.replies[k] == p.chunks[k].Text() + (if p.placement == InLastChunk && k == |p.chunks| - 1 then source else "")
    ensures p.placement == SeparateReply ==> d.replies[|d.replies| - 1] == source
  {
    var texts := seq(|p.chunks|, k requires 0 <= k < |p.chunks| => p.chunks[k].Text());
    var caption := p.caption.Text() + (if p.placement == InCaption then source else "");
    match p.placement
    case InCaption => Delivery(caption, texts)
    case InLastChunk => Delivery(caption, texts[|texts| - 1 := texts[|texts| - 1] + source])
    case SeparateReply => Delivery(caption, texts + [source])
  }

  /**
   * `send_telegram_message` as a whole: every message respects its limit (the
   * caption stays within 900 characters plus the marker, every follow-up within
   * 4000 plus the marker), except a source line sent on its own; a summary that
   * fits the caption together with the source line is sent as one captioned photo.
   */
  function SendTelegramMessage(summary: string, title: string, url: string): (d: Delivery)
    ensures |d.caption| <= CaptionLimit + |Continuation|
    ensures forall k :: 0 <= k < |d.replies| ==>
              |d.replies[k]| <= ChunkLimit + |Continuation| || d.replies[k] == SourceInfo(title, url)
    ensures |summary| + |SourceInfo(title, url)| <= CaptionLimit ==>
              d.caption == summary + SourceInfo(title, url) && d.replies == []
  {
    var p := PlanMessages(summary, title, url);
    PlanPlacesSource(summary, title, url);
    CaptionBounded(p, SourceInfo(title, url));
    RepliesBounded(p, SourceInfo(title, url));
    Deliver(p, SourceInfo(title, url))
  }

  /** The delivered caption: the source line is only added while the whole stays within 900. */
  lemma CaptionBounded(p: Plan, source: string)
    requires p.placement == InLastChunk ==> p.chunks != []
    requires |p.caption.body| <= CaptionLimit
    requires p.placement == InCaption ==> !p.caption.continued && |p.caption.body| + |source| <= CaptionLimit
    ensures |Deliver(p, source).caption| <= CaptionLimit + |Continuation|
  {
  }

  /** Every delivered reply is a follow-up within 4000 characters plus the marker, or the bare source line. */
  lemma RepliesBounded(p: Plan, source: string)
    requires p.placement == InLastChunk ==> p.chunks != []
    requires forall k :: 0 <= k < |p.chunks| ==> |p.chunks[k].body| <= ChunkLimit
    requires p.placement == InLastChunk ==>
               !p.chunks[|p.chunks| - 1].continued && |p.chunks[|p.chunks| - 1].body| + |source| <= ChunkLimit
    ensures var d := Deliver(p, source);
            forall k :: 0 <= k < |d.replies| ==> |d.replies[k]| <= ChunkLimit + |Continuation| || d.replies[k] == source
  {
    var d := Deliver(p, source);
    forall k | 0 <= k < |d.replies|
      ensures |d.replies[k]| <= ChunkLimit + |Continuation| || d.replies[k] == source
    {
      if k < |p.chunks| {
        assert |p.chunks[k].Text()| <= ChunkLimit + |Continuation|;
      }
    }
  }
}

=== FILE: processing.dfy ===
/**
 * `process_pending_videos`: look up the head of every non-empty queue, pick the
 * head published earliest (ties go to the earlier mapping), and, if a transcript,
 * a summary, a thumbnail and a successful delivery all come through, move that
 * head to the processed list. Any failure leaves every queue as it was.
 * The YouTube lookup, the transcript client, the summariser and the Telegram
 * delivery are oracles gathered in `Services`.
 */
module Processing {
  import opened Optional
  import opened Queues
  import opened MessagePlan

  /** What the video lookup reports for a queue head; `publishedAt` is the parsed publish time. */
  datatype VideoInfo = VideoInfo(title: string, publishedAt: int, thumbnails: map<string, string>)

  /** A summary that went out: the mapping it came from and what was sent where. */
  datatype Post = Post(slot: nat, videoId: VideoId, telegramChannelId: string, thumbnail: string, delivery: Delivery)

  /**
   * The outside world: `lookup` is None when the request fails, returns no
   * item or carries an unparseable time; `transcript` is "" on failure;
   * `summarize` is None when the summariser raises; `deliver` says whether
   * sending a post succeeded.
   */
  datatype Services = Services(
    lookup: VideoId -> Option<VideoInfo>,
    transcript: VideoId -> string,
    summarize: (string, Prompt) -> Option<string>,
    deliver: Post -> bool)

  datatype Step = Step(mappings: seq<Mapping>, post: Option<Post>)

  /** The looked-up head of every mapping's queue: None for an empty queue or a failed lookup. */
  function Heads(ms: seq<Mapping>, lookup: VideoId -> Option<VideoInfo>): (cs: seq<Option<VideoInfo>>)
    ensures |cs| == |ms|
    ensures forall i :: 0 <= i < |ms| ==>
              (cs[i].Some? <==> ms[i].unprocessed != [] && lookup(ms[i].unprocessed[0]).Some?)
    ensures forall i :: 0 <= i < |ms| && cs[i].Some? ==> cs[i] == lookup(ms[i].unprocessed[0])
  {
    seq(|ms|, i requires 0 <= i < |ms| =>
      if ms[i].unprocessed == [] then None else lookup(ms[i].unprocessed[0]))
  }

  /**
   * Slot `i` holds a resolved head published no later than any other, and
   * strictly earlier than every resolved head before it.
   */
  predicate IsEarliest(cs: seq<Option<VideoInfo>>, i: int) {
    && 0 <= i < |cs| && cs[i].Some?
    && (forall k :: 0 <= k < |cs| && cs[k].Some? ==> cs[i].value.publishedAt <= cs[k].value.publishedAt)
    && (forall k :: 0 <= k < i && cs[k].Some? ==> cs[i].value.publishedAt < cs[k].value.publishedAt)
  }

  /** The selection loop of `process_pending_videos`, as a function over the looked-up heads. */
  function Earliest(cs: seq<Option<VideoInfo>>): (r: Option<nat>)
    ensures r.None? <==> forall k :: 0 <= k < |cs| ==> cs[k].None?
    ensures forall i :: IsEarliest(cs, i) <==> r == Some(i)
    decreases |cs|
  {
    if cs == [] then None
    else
      var init := cs[..|cs| - 1];
      var prev := Earliest(init);
      var last := |cs| - 1;
      assert forall k :: 0 <= k < last ==> init[k] == cs[k];
      if cs[last].Some? && (prev.None? || cs[last].value.publishedAt < cs[prev.value].value.publishedAt)
      then Some(last)
      else prev
  }

  /** The selection loop as `process_pending_videos` writes it, keeping the earliest time seen so far. */
  method ScanEarliest(cs: seq<Option<VideoInfo>>) returns (r: Option<nat>)
    ensures r == Earliest(cs)
    ensures r.Some? ==> IsEarliest(cs, r.value)
  {
    r := None;
    var earliestTime := 0;
    var i := 0;
    while i < |cs|
      invariant 0 <= i <= |cs|
      invariant r == Earliest(cs[..i])
      invariant r.Some? ==> r.value < i && cs[r.value].Some? && earliestTime == cs[r.value].value.publishedAt
    {
      assert cs[..i + 1][..i] == cs[..i];
      if cs[i].Some? && (r.None? || cs[i].value.publishedAt < earliestTime) {
        r := Some(i);
        earliestTime := cs[i].value.publishedAt;
      }
      i := i + 1;
    }
    assert cs[..|cs|] == cs;
  }

  /** The thumbnail sizes in the order they are preferred. */
  const ThumbnailPriority: seq<string> := ["maxres", "standard", "high", "medium", "default"]

  /**
   * The thumbnail URL of the first size present in priority order; None when
   * none is, where `process_pending_videos`' final lookup raises and processing stops.
   */
  function PickThumbnail(thumbnails: map<string, string>): (r: Option<string>)
    ensures r.None? <==> forall k :: 0 <= k < |ThumbnailPriority| ==> ThumbnailPriority[k] !in thumbnails
    ensures forall k :: 0 <= k < |ThumbnailPriority| && ThumbnailPriority[k] in thumbnails
                        && (forall j :: 0 <= j < k ==> ThumbnailPriority[j] !in thumbnails)
                        ==> r == Some(thumbnails[ThumbnailPriority[k]])
  {
    assert ThumbnailPriority[0] == "maxres" && ThumbnailPriority[1] == "standard" && ThumbnailPriority[2] == "high";
    assert ThumbnailPriority[3] == "medium" && ThumbnailPriority[4] == "default";
    if "maxres" in thumbnails then Some(thumbnails["maxres"])
    else if "standard" in thumbnails then Some(thumbnails["standard"])
    else if "high" in thumbnails then Some(thumbnails["high"])
    else if "medium" in thumbnails then Some(thumbnails["medium"])
    else if "default" in thumbnails then Some(thumbnails["default"])
    else None
  }

  /** Moving the head of a mapping's queue to the end of its processed list. */
  function MarkProcessed(m: Mapping): (r: Mapping)
    requires m.unprocessed != []
    ensures SameChannel(r, m)
    ensures r.processed == m.processed + [m.unprocessed[0]]
    ensures r.unprocessed == m.unprocessed[1..]
    ensures r.processed + r.unprocessed == m.processed + m.unprocessed
    ensures Known(r) == Known(m)
    ensures Wf(m) <==> Wf(r)
  {
    assert m.unprocessed == [m.unprocessed[0]] + m.unprocessed[1..];
    m.(processed := m.processed + [m.unprocessed[0]], unprocessed := m.unprocessed[1..])
  }

  predicate AllWf(ms: seq<Mapping>) {
    forall i :: 0 <= i < |ms| ==> Wf(ms[i])
  }

  /** The post `process_pending_videos` sends for slot `i`, when every service it needs comes through. */
  function PostFor(ms: seq<Mapping>, sv: Services, i: nat, info: VideoInfo): Option<Post>
    requires i < |ms| && ms[i].unprocessed != []
  {
    var id := ms[i].unprocessed[0];
    var transcript := sv.transcript(id);
    var summary := sv.summarize(transcript, ms[i].prompt);
    var thumbnail := PickThumbnail(info.thumbnails);
    if transcript != "" && summary.Some? && thumbnail.Some? then
      Some(Post(i, id, ms[i].telegramChannelId, thumbnail.value, SendTelegramMessage(summary.value, info.title, VideoUrl(id))))
    else None
  }

  /**
   * The processing of the selected head: fetch its transcript, summarise it,
   * pick a thumbnail, deliver, and on success move the head to processed.
   */
  function ProcessSlot(ms: seq<Mapping>, sv: Services, i: nat, info: VideoInfo): (r: Step)
    requires i < |ms| && ms[i].unprocessed != [] && sv.lookup(ms[i].unprocessed[0]) == Some(info)
    ensures |r.mappings| == |ms|
    ensures r.post.None? ==> r.mappings == ms
    ensures r.post.Some? ==>
              var p := r.post.value;
              && p.slot == i
              && p.videoId == ms[i].unprocessed[0]
              && p.telegramChannelId == ms[i].telegramChannelId
              && sv.transcript(p.videoId) != ""
              && sv.summarize(sv.transcript(p.videoId), ms[i].prompt).Some?
              && PickThumbnail(info.thumbnails) == Some(p.thumbnail)
              && p.delivery == SendTelegramMessage(
                   sv.summarize(sv.transcript(p.videoId), ms[i].prompt).value, info.title, VideoUrl(p.videoId))
              && sv.deliver(p)
              && r.mappings[i] == MarkProcessed(ms[i])
              && (forall j :: 0 <= j < |ms| && j != i ==> r.mappings[j] == ms[j])
    ensures PostFor(ms, sv, i, info).Some? && sv.deliver(PostFor(ms, sv, i, info).value) ==> r.post.Some?
    ensures AllWf(ms) ==> AllWf(r.mappings)
  {
    match PostFor(ms, sv, i, info)
    case None => Step(ms, None)
    case Some(post) =>
      if sv.deliver(post) then Step(ms[i := MarkProcessed(ms[i])], Some(post)) else Step(ms, None)
  }

  /** One run of `process_pending_videos`. */
  function ProcessPending(ms: seq<Mapping>, sv: Services): (r: Step)
    ensures |r.mappings| == |ms|
    ensures r.post.None? ==> r.mappings == ms
    ensures r.post.Some? ==>
              var p := r.post.value;
              && IsEarliest(Heads(ms, sv.lookup), p.slot)
              && ms[p.slot].unprocessed != []
              && p.videoId == ms[p.slot].unprocessed[0]
              && p.telegramChannelId == ms[p.slot].telegramChannelId
              && sv.transcript(p.videoId) != ""
              && sv.summarize(sv.transcript(p.videoId), ms[p.slot].prompt).Some?
              && sv.lookup(p.videoId).Some?
              && PickThumbnail(sv.lookup(p.videoId).value.thumbnails) == Some(p.thumbnail)
              && p.delivery == SendTelegramMessage(
                   sv.summarize(sv.transcript(p.videoId), ms[p.slot].prompt).value,
                   sv.lookup(p.videoId).value.title,
                   VideoUrl(p.videoId))
              && sv.deliver(p)
              && r.mappings[p.slot] == MarkProcessed(ms[p.slot])
              && (forall j :: 0 <= j < |ms| && j != p.slot ==> r.mappings[j] == ms[j])
    ensures (forall k :: 0 <= k < |ms| ==> Heads(ms, sv.lookup)[k].None?) ==> r.post.None?
    ensures var cs := Heads(ms, sv.lookup);
            Earliest(cs).Some? ==>
              var i := Earliest(cs).value;
              var id := ms[i].unprocessed[0];
              var transcript := sv.transcript(id);
              var summary := sv.summarize(transcript, ms[i].prompt);
              var thumbnail := PickThumbnail(cs[i].value.thumbnails);
              (transcript != "" && summary.Some? && thumbnail.Some?
               && sv.deliver(Post(i, id, ms[i].telegramChannelId, thumbnail.value,
                                  SendTelegramMessage(summary.value, cs[i].value.title, VideoUrl(id)))))
              ==> r.post.Some?
    ensures AllWf(ms) ==> AllWf(r.mappings)
  {
    var cs := Heads(ms, sv.lookup);
    match Earliest(cs)
    case None => Step(ms, None)
    case Some(i) => ProcessSlot(ms, sv, i, cs[i].value)
  }
}

=== FILE: queues.dfy ===
/**
 * The per-channel video queues of `data.json` and how `check_and_add_new_videos`
 * feeds them. A channel mapping keeps the ids it has finished with
 * (`processed_videos`) and the ids still waiting (`unprocessed_videos`); new
 * uploads are appended in fetch order, those `is_short` accepts straight to the
 * processed list. `is_short` only accepts an id that itself contains "/shorts/",
 * which no real video id does (`IdsAreNeverShorts`), so real Shorts are queued.
 * The YouTube upload listing is an oracle from channel id to the ids it returned.
 */
module Queues {
  import opened Sequences
  import opened Text

  type VideoId = string

  /** The system and user prompt a mapping hands to the summariser. */
  datatype Prompt = Prompt(system: string, user: string)

  datatype Mapping = Mapping(
    youtubeChannelId: string,
    telegramChannelId: string,
    prompt: Prompt,
    processed: seq<VideoId>,
    unprocessed: seq<VideoId>)

  predicate NoDuplicates<T(==)>(s: seq<T>) {
    forall i, j :: 0 <= i < j < |s| ==> s[i] != s[j]
  }

  /** Every id a mapping knows appears once, in one of its two lists. */
  predicate Wf(m: Mapping) {
    NoDuplicates(m.processed + m.unprocessed)
  }

  function Known(m: Mapping): set<VideoId> {
    (set x | x in m.processed) + (set x | x in m.unprocessed)
  }

  const WatchPrefix: string := "https://www.youtube.com/watch?v="
  const ShortsMarker: string := "/shorts/"

  function VideoUrl(id: VideoId): string {
    WatchPrefix + id
  }

  /** `is_short`: whether the watch URL built from the id contains "/shorts/". */
  predicate IsShort(id: VideoId) {
    Contains(VideoUrl(id), ShortsMarker)
  }

  /** No "/shorts/" starts inside the fixed URL prefix, so only the id itself can make `is_short` hold. */
  lemma IsShortIffIdContainsMarker(id: VideoId)
    ensures IsShort(id) <==> Contains(id, ShortsMarker)
  {
    WatchPrefixHasNoSlashS();
    PrefixAddsNoMarker(WatchPrefix, id);
  }

  /** Every '/' of `p` is followed, inside `p`, by a character other than 's'. */
  predicate NoSlashS(p: string) {
    forall i :: 0 <= i < |p| && p[i] == '/' ==> i + 1 < |p| && p[i + 1] != 's'
  }

  lemma WatchPrefixHasNoSlashS()
    ensures NoSlashS(WatchPrefix)
  {
  }

  /** A prefix in which "/s" never occurs cannot contribute to a match of the marker. */
  lemma {:induction false} PrefixAddsNoMarker(p: string, id: VideoId)
    requires NoSlashS(p)
    ensures Contains(p + id, ShortsMarker) <==> Contains(id, ShortsMarker)
    decreases |p|
  {
    var s := p + id;
    if p == [] {
      assert s == id;
    } else {
      assert s[1..] == p[1..] + id;
      assert s[0] == p[0];
      if p[0] == '/' {
        assert s[1] == p[1];
      }
      NoMarkerStart(s);
      assert NoSlashS(p[1..]) by {
        forall i | 0 <= i < |p[1..]| && p[1..][i] == '/'
          ensures i + 1 < |p[1..]| && p[1..][i + 1] != 's'
        {
          assert p[1..][i] == p[i + 1];
        }
      }
      PrefixAddsNoMarker(p[1..], id);
    }
  }

  /** A string that does not begin with "/s" does not begin with the marker. */
  lemma NoMarkerStart(s: string)
    requires s != [] && (s[0] != '/' || (|s| > 1 && s[1] != 's'))
    ensures !(ShortsMarker <= s)
  {
  }

  /** The characters a YouTube video id is made of. */
  predicate IsIdChar(c: char) {
    ('A' <= c <= 'Z') || ('a' <= c <= 'z') || ('0' <= c <= '9') || c == '-' || c == '_'
  }

  /**
   * An id drawn from the video-id alphabet has no '/', so the watch URL built
   * from it never contains "/shorts/": `is_short` is false for every such id.
   */
  lemma IdsAreNeverShorts(id: VideoId)
    requires forall k :: 0 <= k < |id| ==> IsIdChar(id[k])
    ensures !IsShort(id)
  {
    IsShortIffIdContainsMarker(id);
    NoSlashNoMarker(id);
  }

  lemma {:induction false} NoSlashNoMarker(s: string)
    requires forall k :: 0 <= k < |s| ==> s[k] != '/'
    ensures !Contains(s, ShortsMarker)
    decreases |s|
  {
    if s != [] {
      assert !(ShortsMarker <= s) by {
        assert ShortsMarker[0] == '/';
      }
      assert forall k :: 0 <= k < |s[1..]| ==> s[1..][k] == s[k + 1];
      NoSlashNoMarker(s[1..]);
    }
  }

  /** A duplicate-free concatenation is two duplicate-free, disjoint halves. */
  lemma NoDuplicatesConcat<T>(a: seq<T>, b: seq<T>)
    ensures NoDuplicates(a + b) <==>
              NoDuplicates(a) && NoDuplicates(b) && forall x :: x in a ==> x !in b
  {
    if NoDuplicates(a + b) {
      forall i, j | 0 <= i < j < |a| ensures a[i] != a[j] { assert (a + b)[i] == a[i] && (a + b)[j] == a[j]; }
      forall i, j | 0 <= i < j < |b| ensures b[i] != b[j] { assert (a + b)[|a| + i] == b[i] && (a + b)[|a| + j] == b[j]; }
      forall x | x in a ensures x !in b {
        var i :| 0 <= i < |a| && a[i] == x;
        forall j | 0 <= j < |b| ensures b[j] != x {
          assert (a + b)[i] == a[i] && (a + b)[|a| + j] == b[j];
        }
      }
    }
    if NoDuplicates(a) && NoDuplicates(b) && (forall x :: x in a ==> x !in b) {
      forall i, j | 0 <= i < j < |a + b| ensures (a + b)[i] != (a + b)[j] {
        if j < |a| {
          assert (a + b)[i] == a[i] && (a + b)[j] == a[j];
        } else if i >= |a| {
          assert (a + b)[i] == b[i - |a|] && (a + b)[j] == b[j - |a|];
        } else {
          assert (a + b)[i] == a[i] && a[i] in a;
          assert (a + b)[j] == b[j - |a|] && b[j - |a|] in b;
        }
      }
    }
  }

  /** The mapping identity: everything but the two lists. */
  predicate SameChannel(m: Mapping, n: Mapping) {
    m.youtubeChannelId == n.youtubeChannelId && m.telegramChannelId == n.telegramChannelId && m.prompt == n.prompt
  }

  /** One pass of the inner loop of `check_and_add_new_videos` over one fetched id. */
  function EnqueueOne(m: Mapping, id: VideoId): (r: Mapping)
    ensures SameChannel(r, m)
    ensures m.processed <= r.processed && m.unprocessed <= r.unprocessed
    ensures Known(r) == Known(m) + {id}
    ensures Wf(m) ==> Wf(r)
  {
    if id in m.processed || id in m.unprocessed then m
    else if IsShort(id) then
      NoDuplicatesConcat(m.processed, m.unprocessed);
      NoDuplicatesConcat(m.processed, [id]);
      NoDuplicatesConcat(m.processed + [id], m.unprocessed);
      m.(processed := m.processed + [id])
    else
      NoDuplicatesConcat(m.processed, m.unprocessed);
      NoDuplicatesConcat(m.unprocessed, [id]);
      NoDuplicatesConcat(m.processed, m.unprocessed + [id]);
      m.(unprocessed := m.unprocessed + [id])
  }

  /**
   * `check_and_add_new_videos` for one mapping and the ids its upload listing
   * returned: the ids are considered in order, and an id the mapping already
   * knows, including one that appeared earlier in the same batch, is skipped.
   */
  function Enqueue(m: Mapping, ids: seq<VideoId>): (r: Mapping)
    ensures SameChannel(r, m)
    ensures m.processed <= r.processed && m.unprocessed <= r.unprocessed
    ensures Known(r) == Known(m) + (set x | x in ids)
    ensures Wf(m) ==> Wf(r)
    decreases |ids|
  {
    if ids == [] then m
    else
      assert (set x | x in ids) == {ids[0]} + (set x | x in ids[1..]);
      Enqueue(EnqueueOne(m, ids[0]), ids[1..])
  }

  /** The ids of `ids` not in `seen`, each at its first occurrence, in order. */
  function FirstSightings(ids: seq<VideoId>, seen: set<VideoId>): (r: seq<VideoId>)
    decreases |ids|
  {
    if ids == [] then []
    else if ids[0] in seen then FirstSightings(ids[1..], seen)
    else [ids[0]] + FirstSightings(ids[1..], seen + {ids[0]})
  }

  /** The ids of `s` that `is_short` accepts (`short`) or rejects (`!short`), in order. */
  function OfKind(s: seq<VideoId>, short: bool): seq<VideoId> {
    if s == [] then [] else (if IsShort(s[0]) == short then [s[0]] else []) + OfKind(s[1..], short)
  }

  /**
   * What enqueueing appends, independently of the step-by-step loop: the
   * first sightings of ids the mapping did not know, ids `is_short` accepts to
   * the processed list and all others to the unprocessed list, each in fetch
   * order.
   */
  lemma {:induction false} EnqueueAppendsFirstSightings(m: Mapping, ids: seq<VideoId>)
    ensures Enqueue(m, ids).processed == m.processed + OfKind(FirstSightings(ids, Known(m)), true)
    ensures Enqueue(m, ids).unprocessed == m.unprocessed + OfKind(FirstSightings(ids, Known(m)), false)
    decreases |ids|
  {
    if ids == [] {
      assert m.processed + [] == m.processed && m.unprocessed + [] == m.unprocessed;
    } else {
      var m' := EnqueueOne(m, ids[0]);
      EnqueueAppendsFirstSightings(m', ids[1..]);
      if ids[0] in Known(m) {
        assert m' == m;
        assert FirstSightings(ids, Known(m)) == FirstSightings(ids[1..], Known(m));
      } else {
        ProcessedStep(m, ids);
        UnprocessedStep(m, ids);
      }
    }
  }

  /** The inductive steps of `EnqueueAppendsFirstSightings` for an id the mapping did not know. */
  lemma ProcessedStep(m: Mapping, ids: seq<VideoId>)
    requires ids != [] && ids[0] !in Known(m)
    requires var m' := EnqueueOne(m, ids[0]);
             Enqueue(m', ids[1..]).processed == m'.processed + OfKind(FirstSightings(ids[1..], Known(m')), true)
    ensures Enqueue(m, ids).processed == m.processed + OfKind(FirstSightings(ids, Known(m)), true)
  {
    var x, m' := ids[0], EnqueueOne(m, ids[0]);
    var f := FirstSightings(ids[1..], Known(m) + {x});
    FreshStep(m, ids);
    SeenStep(m, x);
    OfKindCons(x, f, true);
    Regroup3(m.processed, if IsShort(x) then [x] else [], OfKind(f, true));
  }

  lemma UnprocessedStep(m: Mapping, ids: seq<VideoId>)
    requires ids != [] && ids[0] !in Known(m)
    requires var m' := EnqueueOne(m, ids[0]);
             Enqueue(m', ids[1..]).unprocessed == m'.unprocessed + OfKind(FirstSightings(ids[1..], Known(m')), false)
    ensures Enqueue(m, ids).unprocessed == m.unprocessed + OfKind(FirstSightings(ids, Known(m)), false)
  {
    var x, m' := ids[0], EnqueueOne(m, ids[0]);
    var f := FirstSightings(ids[1..], Known(m) + {x});
    FreshStep(m, ids);
    SeenStep(m, x);
    OfKindCons(x, f, false);
    Regroup3(m.unprocessed, if !IsShort(x) then [x] else [], OfKind(f, false));
  }

  /** One unfolding of `Enqueue` and `FirstSightings` at an id the mapping did not know. */
  lemma FreshStep(m: Mapping, ids: seq<VideoId>)
    requires ids != [] && ids[0] !in Known(m)
    ensures Enqueue(m, ids) == Enqueue(EnqueueOne(m, ids[0]), ids[1..])
    ensures Known(EnqueueOne(m, ids[0])) == Known(m) + {ids[0]}
    ensures FirstSightings(ids, Known(m)) == [ids[0]] + FirstSightings(ids[1..], Known(m) + {ids[0]})
  {
  }

  /** Enqueueing an id the mapping does not know appends it to exactly one list. */
  lemma SeenStep(m: Mapping, x: VideoId)
    requires x !in Known(m)
    ensures EnqueueOne(m, x).processed == m.processed + (if IsShort(x) then [x] else [])
    ensures EnqueueOne(m, x).unprocessed == m.unprocessed + (if !IsShort(x) then [x] else [])
  {
    assert x !in m.processed && x !in m.unprocessed;
    assert m.processed + [] == m.processed && m.unprocessed + [] == m.unprocessed;
  }

  lemma OfKindCons(x: VideoId, s: seq<VideoId>, short: bool)
    ensures OfKind([x] + s, short) == (if IsShort(x) == short then [x] else []) + OfKind(s, short)
  {
    assert ([x] + s)[0] == x && ([x] + s)[1..] == s;
  }

  /** `check_and_add_new_videos` over every mapping, with the upload listing as an oracle. */
  function CheckAndAddNewVideos(ms: seq<Mapping>, uploads: string -> seq<VideoId>): (r: seq<Mapping>)
    ensures |r| == |ms|
    ensures forall i :: 0 <= i < |ms| ==> SameChannel(r[i], ms[i])
    ensures forall i :: 0 <= i < |ms| ==>
              Known(r[i]) == Known(ms[i]) + (set x | x in uploads(ms[i].youtubeChannelId))
    ensures forall i :: 0 <= i < |ms| ==>
              ms[i].processed <= r[i].processed && ms[i].unprocessed <= r[i].unprocessed
    ensures (forall i :: 0 <= i < |ms| ==> Wf(ms[i])) ==> forall i :: 0 <= i < |r| ==> Wf(r[i])
    ensures forall i :: 0 <= i < |ms| ==>
              var firsts := FirstSightings(uploads(ms[i].youtubeChannelId), Known(ms[i]));
              && r[i].processed == ms[i].processed + OfKind(firsts, true)
              && r[i].unprocessed == ms[i].unprocessed + OfKind(firsts, false)
  {
    var r := seq(|ms|, i requires 0 <= i < |ms| => Enqueue(ms[i], uploads(ms[i].youtubeChannelId)));
    assert forall i :: 0 <= i < |ms| ==> r[i] == Enqueue(ms[i], uploads(ms[i].youtubeChannelId));
    forall i | 0 <= i < |ms|
      ensures var firsts := FirstSightings(uploads(ms[i].youtubeChannelId), Known(ms[i]));
              && r[i].processed == ms[i].processed + OfKind(firsts, true)
              && r[i].unprocessed == ms[i].unprocessed + OfKind(firsts, false)
    {
      EnqueueAppendsFirstSightings(ms[i], uploads(ms[i].youtubeChannelId));
    }
    r
  }
}

=== FILE: sequences.dfy ===
/** Generic facts about sequence concatenation shared by the other modules. */
module Sequences {

  /** Re-association of a three-way concatenation. */
  lemma Regroup3<X>(a: seq<X>, b: seq<X>, c: seq<X>)
    ensures a + b + c == a + (b + c)
  {
  }
}

=== FILE: split.dfy ===
/**
 * `split_at_word_boundary`, the helper nested in `send_telegram_message`: text
 * that fits is returned whole; longer text is cut at the last space before the
 * limit (or at the limit when there is none) and both halves are stripped.
 */
module WordSplit {
  import opened Sequences
  import opened Text

  /**
   * The cut point of an over-long text: the last `' '` in `text[..maxLength]`,
   * or `maxLength` itself when that prefix has no space.
   */
  function CutIndex(text: string, maxLength: nat): (idx: nat)
    requires maxLength < |text|
    ensures idx <= maxLength
    ensures idx < maxLength ==> text[idx] == ' '
    ensures forall k :: idx < k < maxLength ==> text[k] != ' '
    ensures idx == maxLength ==> forall k :: 0 <= k < maxLength ==> text[k] != ' '
  {
    var i := RFind(text, ' ', maxLength);
    if i == -1 then maxLength else i
  }

  /** Python's `split_at_word_boundary(text, max_length)`. */
  function SplitAtWordBoundary(text: string, maxLength: nat): (parts: (string, string))
    ensures |text| <= maxLength ==> parts == (text, "")
    ensures |text| > maxLength ==>
              parts == (Strip(text[..CutIndex(text, maxLength)]), Strip(text[CutIndex(text, maxLength)..]))
    ensures |parts.0| <= maxLength
    ensures IsStripped(parts.1)
  {
    if |text| <= maxLength then (text, "")
    else
      var idx := CutIndex(text, maxLength);
      (Strip(text[..idx]), Strip(text[idx..]))
  }

  /**
   * With a positive limit, a split that has to cut leaves a strictly shorter
   * remainder; this is what makes the follow-up loop terminate.
   */
  lemma SplitShrinks(text: string, maxLength: nat)
    requires 0 < maxLength
    ensures |SplitAtWordBoundary(text, maxLength).1| < |text| || SplitAtWordBoundary(text, maxLength).1 == ""
  {
    if |text| > maxLength {
      var idx := CutIndex(text, maxLength);
      if idx == 0 {
        assert text[idx..] == text;
        assert IsSpace(text[0]);
        assert LeadingSpaces(text) >= 1;
      }
    }
  }

  /**
   * Splitting loses only whitespace: erasing whitespace, the two halves
   * together are the original text.
   */
  lemma SplitKeepsContent(text: string, maxLength: nat)
    ensures Dense(text) == Dense(SplitAtWordBoundary(text, maxLength).0) + Dense(SplitAtWordBoundary(text, maxLength).1)
  {
    if |text| > maxLength {
      var idx := CutIndex(text, maxLength);
      assert text == text[..idx] + text[idx..];
      DenseAppend(text[..idx], text[idx..]);
      DenseStrip(text[..idx]);
      DenseStrip(text[idx..]);
    } else {
      assert Dense("") == "";
    }
  }

  /**
   * The halves of a cut occur in the text in order, separated and surrounded
   * only by whitespace: `text == lead + first + gap + rest + tail`.
   */
  lemma SplitKeepsOrder(text: string, maxLength: nat) returns (lead: string, gap: string, tail: string)
    requires |text| > maxLength
    ensures AllSpace(lead) && AllSpace(gap) && AllSpace(tail)
    ensures text == lead + SplitAtWordBoundary(text, maxLength).0 + gap + SplitAtWordBoundary(text, maxLength).1 + tail
  {
    var idx := CutIndex(text, maxLength);
    var l, r := text[..idx], text[idx..];
    assert text == l + r;
    StripPair(l, r);
    AllSpaceAppend(l[StripEnd(l)..], r[..StripStart(r)]);
    lead, gap, tail := l[..StripStart(l)], l[StripEnd(l)..] + r[..StripStart(r)], r[StripEnd(r)..];
  }

  /** Cutting `l + r` into whitespace, `Strip(l)`, whitespace, `Strip(r)`, whitespace. */
  lemma StripPair(l: string, r: string)
    ensures l + r == l[..StripStart(l)] + Strip(l) + (l[StripEnd(l)..] + r[..StripStart(r)]) + Strip(r) + r[StripEnd(r)..]
  {
    StripDecomposes(l);
    StripDecomposes(r);
    var a, f, b := l[..StripStart(l)], Strip(l), l[StripEnd(l)..];
    var c, g, d := r[..StripStart(r)], Strip(r), r[StripEnd(r)..];
    Regroup3(a + f, b, c + g + d);
    Regroup3(b, c, g + d);
    Regroup3(a + f + (b + c), g, d);
  }
}

=== FILE: subscriptions.dfy ===
/**
 * The Telegram command handlers of `CommandHandler` as transitions over an
 * abstract store: the users who sent /start and the (YouTube channel, user,
 * title) records of the channels they monitor, kept in insertion order. The
 * channel lookup is an oracle; every handler returns the new store and the
 * reply text it sends.
 */
module Subscriptions {
  import opened Optional

  datatype User = User(telegramId: int, username: Option<string>)

  /** A monitored channel; `userId` holds the Telegram id of the user who added it. */
  datatype Channel = Channel(youtubeId: string, title: string, userId: int)

  datatype Store = Store(users: seq<User>, channels: seq<Channel>)

  /** What the channel lookup does: finds a title, finds nothing, or raises with a message. */
  datatype Lookup = Found(title: string) | NotFound | Raised(message: string)

  datatype Outcome = Outcome(store: Store, reply: string)

  predicate HasUser(s: Store, telegramId: int) {
    exists i :: 0 <= i < |s.users| && s.users[i].telegramId == telegramId
  }

  /** At most one user record per Telegram id. */
  predicate UniqueUsers(s: Store) {
    forall i, j :: 0 <= i < j < |s.users| ==> s.users[i].telegramId != s.users[j].telegramId
  }

  predicate Matches(c: Channel, youtubeId: string, userId: int) {
    c.youtubeId == youtubeId && c.userId == userId
  }

  predicate Monitors(s: Store, youtubeId: string, userId: int) {
    exists i :: 0 <= i < |s.channels| && Matches(s.channels[i], youtubeId, userId)
  }

  /** At most one record per (YouTube channel, user) pair. */
  predicate UniquePairs(s: Store) {
    forall i, j :: 0 <= i < j < |s.channels| ==>
      !Matches(s.channels[j], s.channels[i].youtubeId, s.channels[i].userId)
  }

  /** The welcome text of /start, greeting the user by first name. */
  function Welcome(firstName: string): string {
    WelcomeGreeting + firstName + WelcomeBody
  }

  const WelcomeGreeting: string := "\U{1F44B} Hello "

  /** The rest of the welcome text: the bot's introduction and its command list. */
  const WelcomeBody: string :=
    "!\n\nI'm TubeDigest, your YouTube summary bot. I can help you monitor YouTube channels and send you summaries of new videos.\n\nAvailable commands:\n/add_channel <channel_id> - Add a YouTube channel to monitor\n/list_channels - List your monitored channels\n/remove_channel <channel_id> - Remove a channel from monitoring\n/help - Show this help message"

  const AddUsage: string := "Please provide a YouTube channel ID. Usage: /add_channel <channel_id>"
  const RemoveUsage: string := "Please provide a YouTube channel ID. Usage: /remove_channel <channel_id>"
  const ChannelNotFound: string := "Channel not found. Please check the channel ID."
  const VerifyError: string := "Error verifying channel: "
  const AlreadyMonitoring: string := "You're already monitoring this channel."
  const NotInList: string := "Channel not found in your monitored list."
  const NotMonitoring: string := "You're not monitoring any channels yet."
  const ListHeader: string := "Your monitored channels:\n\n"

  /** The command's first argument; "" stands for a missing or empty one. */
  function FirstArg(args: seq<string>): string {
    if args == [] then "" else args[0]
  }

  /** /start: create a user record unless one with this Telegram id exists, then welcome. */
  function Start(s: Store, telegramId: int, username: Option<string>, firstName: string): (r: Outcome)
    ensures r.reply == Welcome(firstName)
    ensures r.store.channels == s.channels
    ensures HasUser(r.store, telegramId)
    ensures HasUser(s, telegramId) ==> r.store == s
    ensures !HasUser(s, telegramId) ==> r.store.users == s.users + [User(telegramId, username)]
    ensures UniqueUsers(s) ==> UniqueUsers(r.store)
  {
    if HasUser(s, telegramId) then Outcome(s, Welcome(firstName))
    else
      var users := s.users + [User(telegramId, username)];
      assert users[|s.users|].telegramId == telegramId;
      Outcome(s.(users := users), Welcome(firstName))
  }

  /** Repeating /start changes nothing more: exactly one record per user remains. */
  lemma StartIdempotent(s: Store, telegramId: int, username: Option<string>, firstName: string)
    ensures var once := Start(s, telegramId, username, firstName).store;
            Start(once, telegramId, username, firstName).store == once
  {
  }

  /** /add_channel: verify the channel, refuse duplicates, then record it with the looked-up title. */
  function AddChannel(s: Store, userId: int, args: seq<string>, lookup: string -> Lookup): (r: Outcome)
    ensures r.store.users == s.users
    ensures FirstArg(args) == "" ==> r == Outcome(s, AddUsage)
    ensures FirstArg(args) != "" && lookup(FirstArg(args)).NotFound? ==> r == Outcome(s, ChannelNotFound)
    ensures FirstArg(args) != "" && lookup(FirstArg(args)).Raised? ==>
              r == Outcome(s, VerifyError + lookup(FirstArg(args)).message)
    ensures FirstArg(args) != "" && lookup(FirstArg(args)).Found? && Monitors(s, FirstArg(args), userId) ==>
              r == Outcome(s, AlreadyMonitoring)
    ensures r.store != s <==>
              FirstArg(args) != "" && lookup(FirstArg(args)).Found? && !Monitors(s, FirstArg(args), userId)
    ensures r.store != s ==>
              r.store.channels == s.channels + [Channel(FirstArg(args), lookup(FirstArg(args)).title, userId)]
              && r.reply == "Added channel: " + lookup(FirstArg(args)).title
    ensures FirstArg(args) != "" && lookup(FirstArg(args)).Found? ==> Monitors(r.store, FirstArg(args), userId)
    ensures UniquePairs(s) ==> UniquePairs(r.store)
  {
    var channelId := FirstArg(args);
    if channelId == "" then Outcome(s, AddUsage)
    else
      match lookup(channelId)
      case NotFound => Outcome(s, ChannelNotFound)
      case Raised(message) => Outcome(s, VerifyError + message)
      case Found(title) =>
        if Monitors(s, channelId, userId) then Outcome(s, AlreadyMonitoring)
        else
          var channels := s.channels + [Channel(channelId, title, userId)];
          assert Matches(channels[|s.channels|], channelId, userId);
          assert |channels| != |s.channels|;
          Outcome(s.(channels := channels), "Added channel: " + title)
  }

  /**
   * The lookup the handler actually performs: the YouTube service it is given
   * defines no `get_channel_info`, so the call raises an attribute error, which
   * the handler's `except` turns into an error reply.
   */
  const MissingLookup: string := "'YouTubeService' object has no attribute 'get_channel_info'"

  function ShippedLookup(channelId: string): (r: Lookup)
    ensures r.Raised?
  {
    Raised(MissingLookup)
  }

  /** With the shipped lookup, /add_channel never records a channel and always answers with an error. */
  lemma ShippedAddNeverAdds(s: Store, userId: int, args: seq<string>)
    ensures AddChannel(s, userId, args, ShippedLookup).store == s
    ensures FirstArg(args) != "" ==>
              AddChannel(s, userId, args, ShippedLookup).reply == VerifyError + MissingLookup
  {
    assert ShippedLookup(FirstArg(args)) == Raised(MissingLookup);
  }

  /** The first record of `userId` for `youtubeId`, as the handler's `.first()` query finds it. */
  function FirstMatch(cs: seq<Channel>, youtubeId: string, userId: int): (r: Option<nat>)
    ensures r.None? <==> forall i :: 0 <= i < |cs| ==> !Matches(cs[i], youtubeId, userId)
    ensures r.Some? ==> r.value < |cs| && Matches(cs[r.value], youtubeId, userId)
    ensures r.Some? ==> forall i :: 0 <= i < r.value ==> !Matches(cs[i], youtubeId, userId)
    decreases |cs|
  {
    if cs == [] then None
    else if Matches(cs[0], youtubeId, userId) then Some(0)
    else match FirstMatch(cs[1..], youtubeId, userId)
      case None => None
      case Some(k) => Some(k + 1)
  }

  /** /remove_channel: delete the caller's record for the channel, if there is one. */
  function RemoveChannel(s: Store, userId: int, args: seq<string>): (r: Outcome)
    ensures r.store.users == s.users
    ensures FirstArg(args) == "" ==> r == Outcome(s, RemoveUsage)
    ensures FirstArg(args) != "" && !Monitors(s, FirstArg(args), userId) ==> r == Outcome(s, NotInList)
    ensures r.store != s <==> FirstArg(args) != "" && Monitors(s, FirstArg(args), userId)
    ensures r.store != s ==>
              var k := FirstMatch(s.channels, FirstArg(args), userId).value;
              && r.store.channels == s.channels[..k] + s.channels[k + 1..]
              && multiset(r.store.channels) == multiset(s.channels) - multiset{s.channels[k]}
              && r.reply == "Removed channel: " + s.channels[k].title
    ensures UniquePairs(s) ==> UniquePairs(r.store)
    ensures UniquePairs(s) && FirstArg(args) != "" ==> !Monitors(r.store, FirstArg(args), userId)
  {
    var channelId := FirstArg(args);
    if channelId == "" then Outcome(s, RemoveUsage)
    else
      match FirstMatch(s.channels, channelId, userId)
      case None => Outcome(s, NotInList)
      case Some(k) =>
        RemovalKeepsUnique(s, k);
        Outcome(s.(channels := Without(s.channels, k)), "Removed channel: " + s.channels[k].title)
  }

  /** `cs` with entry `k` deleted: the later entries shift down by one, and exactly that entry is gone. */
  function Without(cs: seq<Channel>, k: nat): (r: seq<Channel>)
    requires k < |cs|
    ensures |r| == |cs| - 1
    ensures forall i :: 0 <= i < |r| ==> r[i] == cs[if i < k then i else i + 1]
    ensures multiset(r) == multiset(cs) - multiset{cs[k]}
  {
    assert cs == cs[..k] + [cs[k]] + cs[k + 1..];
    cs[..k] + cs[k + 1..]
  }

  /** Under pair uniqueness, deleting record `k` keeps uniqueness and leaves no record with its pair. */
  lemma RemovalKeepsUnique(s: Store, k: nat)
    requires k < |s.channels|
    ensures var t := s.(channels := Without(s.channels, k));
            UniquePairs(s) ==> UniquePairs(t) && !Monitors(t, s.channels[k].youtubeId, s.channels[k].userId)
  {
    var cs := s.channels;
    var t := s.(channels := Without(cs, k));
    if UniquePairs(s) {
      forall i, j | 0 <= i < j < |t.channels|
        ensures !Matches(t.channels[j], t.channels[i].youtubeId, t.channels[i].userId)
      {
        var i', j' := if i < k then i else i + 1, if j < k then j else j + 1;
        assert t.channels[i] == cs[i'] && t.channels[j] == cs[j'];
      }
      forall i | 0 <= i < |t.channels|
        ensures !Matches(t.channels[i], cs[k].youtubeId, cs[k].userId)
      {
        var i' := if i < k then i else i + 1;
        assert t.channels[i] == cs[i'];
      }
    }
  }

  /** The records of `userId`, in store order. */
  function Owned(cs: seq<Channel>, userId: int): (r: seq<Channel>)
    ensures forall c :: c in r <==> c in cs && c.userId == userId
    decreases |cs|
  {
    if cs == [] then []
    else (if cs[0].userId == userId then [cs[0]] else []) + Owned(cs[1..], userId)
  }

  function Line(c: Channel): string {
    "\U{2022} " + c.title + " (ID: " + c.youtubeId + ")\n"
  }

  function Lines(cs: seq<Channel>): string {
    if cs == [] then "" else Line(cs[0]) + Lines(cs[1..])
  }

  /** /list_channels: one bullet line per record of the caller, or the fixed "not monitoring" reply. */
  function ListChannels(s: Store, userId: int): (r: string)
    ensures r == NotMonitoring <==> forall i :: 0 <= i < |s.channels| ==> s.channels[i].userId != userId
    ensures r != NotMonitoring ==> r == ListHeader + Lines(Owned(s.channels, userId))
  {
    var owned := Owned(s.channels, userId);
    if owned == [] then
      assert forall i :: 0 <= i < |s.channels| ==> s.channels[i] in s.channels;
      NotMonitoring
    else
      assert owned[0] in owned;
      var text := ListHeader + Lines(owned);
      assert text[3] == ListHeader[3] == 'r';
      assert NotMonitoring[3] == '\'';
      text
  }

  lemma {:induction false} OwnedAppend(a: seq<Channel>, b: seq<Channel>, userId: int)
    ensures Owned(a + b, userId) == Owned(a, userId) + Owned(b, userId)
    decreases |a|
  {
    if a == [] {
      assert a + b == b;
    } else {
      assert (a + b)[0] == a[0] && (a + b)[1..] == a[1..] + b;
      OwnedAppend(a[1..], b, userId);
    }
  }

  lemma {:induction false} LinesAppend(a: seq<Channel>, b: seq<Channel>)
    ensures Lines(a + b) == Lines(a) + Lines(b)
    decreases |a|
  {
    if a == [] {
      assert a + b == b;
    } else {
      assert (a + b)[0] == a[0] && (a + b)[1..] == a[1..] + b;
      LinesAppend(a[1..], b);
    }
  }

  /** Removing a channel right after adding it restores the store. */
  lemma AddThenRemoveRestores(s: Store, userId: int, youtubeId: string, lookup: string -> Lookup)
    requires AddChannel(s, userId, [youtubeId], lookup).store != s
    ensures RemoveChannel(AddChannel(s, userId, [youtubeId], lookup).store, userId, [youtubeId]).store == s
  {
    var c := Channel(youtubeId, lookup(youtubeId).title, userId);
    RemoveAfterAppend(s, c);
  }

  /** Deleting the caller's record of a channel they did not monitor before it was appended. */
  lemma RemoveAfterAppend(s: Store, c: Channel)
    requires c.youtubeId != "" && !Monitors(s, c.youtubeId, c.userId)
    ensures RemoveChannel(s.(channels := s.channels + [c]), c.userId, [c.youtubeId]).store == s
  {
    var n := |s.channels|;
    FirstMatchAppend(s.channels, c);
    assert Without(s.channels + [c], n) == s.channels;
  }

  /** A record appended after none that matches it is the first match. */
  lemma FirstMatchAppend(cs: seq<Channel>, c: Channel)
    requires forall i :: 0 <= i < |cs| ==> !Matches(cs[i], c.youtubeId, c.userId)
    ensures FirstMatch(cs + [c], c.youtubeId, c.userId) == Some(|cs|)
  {
    var t := cs + [c];
    assert t[|cs|] == c;
    assert forall i :: 0 <= i < |cs| ==> t[i] == cs[i];
  }

  /**
   * A successful /add_channel adds one line, for the new channel, after the
   * caller's earlier lines: the reply turns from "not monitoring" into a list
   * when it is the caller's first channel.
   */
  lemma ListAfterAdd(s: Store, userId: int, youtubeId: string, lookup: string -> Lookup)
    requires AddChannel(s, userId, [youtubeId], lookup).store != s
    ensures var c := Channel(youtubeId, lookup(youtubeId).title, userId);
            ListChannels(AddChannel(s, userId, [youtubeId], lookup).store, userId)
            == ListHeader + Lines(Owned(s.channels, userId)) + Line(c)
  {
    ListAfterAppend(s, Channel(youtubeId, lookup(youtubeId).title, userId));
  }

  /** Appending a record of a user adds its line at the end of that user's list. */
  lemma ListAfterAppend(s: Store, c: Channel)
    ensures ListChannels(s.(channels := s.channels + [c]), c.userId)
            == ListHeader + Lines(Owned(s.channels, c.userId)) + Line(c)
  {
    var before := Owned(s.channels, c.userId);
    OwnedAppend(s.channels, [c], c.userId);
    assert Owned([c], c.userId) == [c] by { assert [c][1..] == []; }
    LinesAppend(before, [c]);
    assert Lines([c]) == Line(c) by { assert [c][1..] == []; }
    assert (before + [c])[|before|] == c;
  }

  /** Adding a channel never changes another user's list. */
  lemma AddKeepsOtherLists(s: Store, userId: int, other: int, args: seq<string>, lookup: string -> Lookup)
    requires other != userId
    ensures ListChannels(AddChannel(s, userId, args, lookup).store, other) == ListChannels(s, other)
  {
    var added := AddChannel(s, userId, args, lookup).store;
    if added != s {
      var c := Channel(FirstArg(args), lookup(FirstArg(args)).title, userId);
      OwnedAppend(s.channels, [c], other);
      assert Owned([c], other) == [] by { assert [c][1..] == []; }
      SameOwnedSameList(s, added, other);
    }
  }

  /** Removing a channel never changes another user's list. */
  lemma RemoveKeepsOtherLists(s: Store, userId: int, other: int, args: seq<string>)
    requires other != userId
    ensures ListChannels(RemoveChannel(s, userId, args).store, other) == ListChannels(s, other)
  {
    var removed := RemoveChannel(s, userId, args).store;
    if removed != s {
      var k := FirstMatch(s.channels, FirstArg(args), userId).value;
      assert removed.channels == s.channels[..k] + s.channels[k + 1..];
      OwnedSkipsOther(s.channels, k, other);
      SameOwnedSameList(s, removed, other);
    }
  }

  lemma OwnedSkipsOther(cs: seq<Channel>, k: nat, other: int)
    requires k < |cs| && cs[k].userId != other
    ensures Owned(cs[..k] + cs[k + 1..], other) == Owned(cs, other)
  {
    var before, after := cs[..k], cs[k + 1..];
    calc {
      Owned(cs, other);
      { assert cs == before + ([cs[k]] + after); }
      Owned(before + ([cs[k]] + after), other);
      { OwnedAppend(before, [cs[k]] + after, other); }
      Owned(before, other) + Owned([cs[k]] + after, other);
      { assert ([cs[k]] + after)[0] == cs[k] && ([cs[k]] + after)[1..] == after; }
      Owned(before, other) + Owned(after, other);
      { OwnedAppend(before, after, other); }
      Owned(before + after, other);
    }
  }

  lemma SameOwnedSameList(s: Store, t: Store, userId: int)
    requires Owned(s.channels, userId) == Owned(t.channels, userId)
    ensures ListChannels(s, userId) == ListChannels(t, userId)
  {
  }
}

=== FILE: text.dfy ===
/**
 * The string primitives the bot relies on, stated over `seq<char>` with lengths
 * counted in code points (as Python's `len` does):
 *   - `IsSpace`/`Strip` model `str.isspace` and argument-less `str.strip()`;
 *   - `Dense` erases whitespace, the yardstick for "no visible character lost";
 *   - `Contains` models the substring test `sub in s`;
 *   - `RFind` models `s.rfind(c, 0, end)` for a one-character needle.
 */
module Text {

  /** The characters Python's `str.isspace` accepts, i.e. the ones `strip()` removes. */
  predicate IsSpace(c: char) {
    || c == ' '
    || ('\t' <= c <= '\r')
    || ('\U{1C}' <= c <= '\U{1F}')
    || c == '\U{85}' || c == '\U{A0}' || c == '\U{1680}'
    || ('\U{2000}' <= c <= '\U{200A}')
    || c == '\U{2028}' || c == '\U{2029}' || c == '\U{202F}' || c == '\U{205F}' || c == '\U{3000}'
  }

  predicate AllSpace(s: string) {
    forall k :: 0 <= k < |s| ==> IsSpace(s[k])
  }

  /** A string `strip()` leaves unchanged: empty, or non-whitespace at both ends. */
  predicate IsStripped(s: string) {
    s == [] || (!IsSpace(s[0]) && !IsSpace(s[|s| - 1]))
  }

  /** Number of whitespace characters at the front of `s`. */
  function LeadingSpaces(s: string): (n: nat)
    ensures n <= |s|
    ensures forall k :: 0 <= k < n ==> IsSpace(s[k])
    ensures n < |s| ==> !IsSpace(s[n])
    decreases |s|
  {
    if |s| == 0 || !IsSpace(s[0]) then 0 else 1 + LeadingSpaces(s[1..])
  }

  /** Number of whitespace characters at the back of `s`. */
  function TrailingSpaces(s: string): (n: nat)
    ensures n <= |s|
    ensures forall k :: |s| - n <= k < |s| ==> IsSpace(s[k])
    ensures n < |s| ==> !IsSpace(s[|s| - 1 - n])
    decreases |s|
  {
    if |s| == 0 || !IsSpace(s[|s| - 1]) then 0 else 1 + TrailingSpaces(s[..|s| - 1])
  }

  /** Where the stripped text begins and ends inside `s`. */
  function StripStart(s: string): nat {
    LeadingSpaces(s)
  }

  function StripEnd(s: string): (j: nat)
    ensures StripStart(s) <= j <= |s|
  {
    |s| - TrailingSpaces(s[LeadingSpaces(s)..])
  }

  /** Python's `s.strip()`. */
  function Strip(s: string): (r: string)
    ensures r == s[StripStart(s)..StripEnd(s)]
    ensures AllSpace(s[..StripStart(s)]) && AllSpace(s[StripEnd(s)..])
    ensures IsStripped(r)
    ensures |r| <= |s|
  {
    var t := s[LeadingSpaces(s)..];
    t[..|t| - TrailingSpaces(t)]
  }

  /**
   * `Strip` is the only way to cut `s` into whitespace, a stripped middle and
   * whitespace: any such middle is `Strip(s)`.
   */
  lemma StripUnique(s: string, i: nat, j: nat)
    requires i <= j <= |s|
    requires AllSpace(s[..i]) && AllSpace(s[j..]) && IsStripped(s[i..j])
    ensures s[i..j] == Strip(s)
  {
    var a, b := StripStart(s), StripEnd(s);
    assert forall k :: 0 <= k < i ==> IsSpace(s[k]) by {
      forall k | 0 <= k < i ensures IsSpace(s[k]) { assert s[..i][k] == s[k]; }
    }
    assert forall k :: j <= k < |s| ==> IsSpace(s[k]) by {
      forall k | j <= k < |s| ensures IsSpace(s[k]) { assert s[j..][k - j] == s[k]; }
    }
    assert forall k :: 0 <= k < a ==> IsSpace(s[k]) by {
      forall k | 0 <= k < a ensures IsSpace(s[k]) { assert s[..a][k] == s[k]; }
    }
    assert forall k :: b <= k < |s| ==> IsSpace(s[k]) by {
      forall k | b <= k < |s| ensures IsSpace(s[k]) { assert s[b..][k - b] == s[k]; }
    }
    if i < j {
      assert !IsSpace(s[i]) && !IsSpace(s[j - 1]) by { assert s[i..j][0] == s[i]; assert s[i..j][j - i - 1] == s[j - 1]; }
      if a < b {
        assert !IsSpace(s[a]) && !IsSpace(s[b - 1]) by {
          assert Strip(s)[0] == s[a]; assert Strip(s)[b - a - 1] == s[b - 1];
        }
        assert a == i && b == j;
      } else {
        assert false;
      }
    }
  }

  /** `s` with every whitespace character erased. */
  function Dense(s: string): (d: string)
    ensures |d| <= |s|
  {
    if s == [] then [] else (if IsSpace(s[0]) then [] else [s[0]]) + Dense(s[1..])
  }

  lemma {:induction false} DenseAppend(a: string, b: string)
    ensures Dense(a + b) == Dense(a) + Dense(b)
    decreases |a|
  {
    if a == [] {
      assert a + b == b;
    } else {
      assert (a + b)[1..] == a[1..] + b;
      DenseAppend(a[1..], b);
    }
  }

  lemma StripDecomposes(s: string)
    ensures s == s[..StripStart(s)] + Strip(s) + s[StripEnd(s)..]
  {
  }

  lemma AllSpaceAppend(a: string, b: string)
    requires AllSpace(a) && AllSpace(b)
    ensures AllSpace(a + b)
  {
  }

  /** Whitespace-only text is exactly the text that erases to nothing. */
  lemma {:induction false} DenseEmptyIffAllSpace(s: string)
    ensures Dense(s) == [] <==> AllSpace(s)
    decreases |s|
  {
    if s != [] {
      DenseEmptyIffAllSpace(s[1..]);
      if AllSpace(s[1..]) && IsSpace(s[0]) {
        forall k | 0 <= k < |s| ensures IsSpace(s[k]) {
          if k > 0 { assert s[1..][k - 1] == s[k]; }
        }
      }
      if AllSpace(s) {
        forall k | 0 <= k < |s| - 1 ensures IsSpace(s[1..][k]) { assert s[1..][k] == s[k + 1]; }
      }
    }
  }

  /** Stripping loses only whitespace. */
  lemma DenseStrip(s: string)
    ensures Dense(Strip(s)) == Dense(s)
  {
    var a, b := StripStart(s), StripEnd(s);
    assert s == s[..a] + s[a..b] + s[b..];
    DenseAppend(s[..a] + s[a..b], s[b..]);
    DenseAppend(s[..a], s[a..b]);
    DenseEmptyIffAllSpace(s[..a]);
    DenseEmptyIffAllSpace(s[b..]);
  }

  /** Python's substring test `sub in s`. */
  predicate Contains(s: string, sub: string)
    decreases |s|
  {
    sub <= s || (s != [] && Contains(s[1..], sub))
  }

  /** Python's `s.rfind(c, 0, end)`: the last index below `end` holding `c`, or -1. */
  function RFind(s: string, c: char, end: nat): (i: int)
    ensures -1 <= i < end && i < |s|
    ensures i >= 0 ==> s[i] == c
    ensures forall k :: i < k < end && k < |s| ==> s[k] != c
    decreases end
  {
    if end == 0 then -1
    else if end - 1 < |s| && s[end - 1] == c then end - 1
    else RFind(s, c, end - 1)
  }
}
